=== FILE: README.md ===
# Vanguard SAI-838 auditor — a Dafny model

Vanguard SAI-838 is a small "security audit" service. A target arrives through
one of two front doors: a Telegram bot message, or the Flask endpoints
`/api/audit` and `/api/fix`. A target that contains a dot is scanned as a
website; any other target is scanned as an Ethereum wallet.

- The website scan checks latency, the `X-Frame-Options` header and the meta
  description. It collects issues and a severity, and quotes a price and a
  number of work days.
- The wallet scan returns one of two fixed records.
- A PDF report is rendered from the scan record.
- The bot records each job in the `vanguard_jobs` table, and `/api/fix` marks
  matching jobs FIXED. The dashboard lists the table newest first.

This project models that decision logic:

- `wrappers.dfy`: the `Option` type.
- `decimal.dfy`: Python's `str(int)` as `IntToString`, and a parser that reads
  it back.
- `text.dfy`: Python's `str.strip`, over the characters `str.isspace` accepts;
  the Latin-1 character class `Latin1`, with `Latin1Concat` and `Latin1Join`
  for concatenations; and `ConcatCancel`, which cancels equal text around a
  middle part.
- `auditor.dfy`: the `VanguardAuditor` class.
  - `ScanWebsite` is imperative: it appends issues and overwrites the severity
    step by step, and is proved equal to the specification function
    `WebsiteFinding`.
  - `ScanWallet` and the quote are pure functions.
  - `GenerateReport` builds the report's text lines in a loop, and is proved
    equal to `ReportLines`. The report's content is stated by a read-back
    round trip (`ReportReadBack`).
  - Writing the document fails when a line holds a character outside
    Latin-1, the only encoding of the report's core font. `ReportEncodable`
    states exactly when that happens.
- `main.dfy`: the service around the auditor.
  - the `"." in target` dispatch;
  - a `JobTable` class holding the table's rows in insertion order plus the
    next SERIAL id, with INSERT, UPDATE and SELECT as methods;
  - a `Service` class whose methods are the bot handler, the two API routes
    and the dashboard.

The network answers a request would get become a parameter of type `Probes`.
The clock reading that names the report file becomes an integer `seconds`
parameter.

## Model

| member | source | states |
|---|---|---|
| Auditor.Normalize | auditor.py:13 | the target starts with "http" and ends with the input; it equals the input exactly when the input already starts with "http", and otherwise is "https://" followed by the input |
| Auditor.NormalizeIdempotent | auditor.py:13 | normalising a normalised URL changes nothing |
| Auditor.LatencyWordingLatin1 | auditor.py:23 | the fixed wording around a latency reading is Latin-1 |
| Auditor.FrameWordingLatin1 | auditor.py:27 | the clickjacking issue text is Latin-1 |
| Auditor.MetaWordingLatin1 | auditor.py:32 | the meta-description issue text is Latin-1 |
| Auditor.FailureWordingLatin1 | auditor.py:35 | the fixed wording in front of an exception message is Latin-1 |
| Auditor.WalletWordingLatin1 | auditor.py:49-53 | the fixed wording of the wallet issues (transaction count, entropy, RPC error) is Latin-1 |
| Auditor.IssueText | auditor.py:23-53 | an issue text is Latin-1 if and only if the latency reading or exception message it embeds verbatim is; the rest of its wording is Latin-1 |
| Auditor.Texts | auditor.py:23-35 | one text per issue, in order: text k is the text of issue k |
| Auditor.QuoteDays | auditor.py:38 | a quote is always 2 or 5 days |
| Auditor.QuoteCost | auditor.py:39 | a quote never costs less than the base price of 350 |
| Auditor.QuoteCostInverse | auditor.py:39 | the price minus 350 is a multiple of 150, and dividing it by 150 gives back the issue count |
| Auditor.QuoteMonotone | auditor.py:37-39 | days and price never decrease as the issue count grows, and two counts give the same price only if they are equal |
| Auditor.QuoteThreshold | auditor.py:38 | the quote is 2 days if and only if there are fewer than 2 issues |
| Auditor.WebsiteIssues | auditor.py:14-35 | a website scan collects at most 3 issues |
| Auditor.WebsiteSeverity | auditor.py:15-28 | a website scan never ends CRITICAL |
| Auditor.WebsiteFinding | auditor.py:12-41 | the record is a WEBSITE record for the normalised URL, with no balance and at most 3 issues; days and price are the quote for its issue count |
| Auditor.ScanWebsite | auditor.py:12-41 | the imperative scan (appending issues, overwriting severity, exception branch appending to what was collected) returns exactly WebsiteFinding |
| Auditor.CleanScan | auditor.py:14-39 | a response that fails no check gives no issues, LOW, 2 days and 350 |
| Auditor.RequestFailureFinding | auditor.py:17-39 | a failed request gives exactly one CONNECTION_FAILURE issue, LOW, 2 days and 500 |
| Auditor.SeverityOnResponse | auditor.py:22-28 | on a response, the severity is MEDIUM if and only if X-Frame-Options is missing (even on a slow site), HIGH if and only if the site is slow and the header is present, and LOW if and only if neither check failed |
| Auditor.PageNeverChangesSeverity | auditor.py:30-35 | the meta-description check, and a failure while parsing the page, leave the severity as the header checks set it |
| Auditor.IssuesInCheckOrder | auditor.py:22-35 | issues come in check order: latency first, the clickjacking gap after it, and a missing description appended last; there is one issue per failing check; an exception while parsing the page appends CONNECTION_FAILURE after what the header checks collected |
| Auditor.SlowUnframedSite | auditor.py:13-39 | a slow site without X-Frame-Options, given without a scheme, becomes "https://…" with two issues, MEDIUM, 5 days and 650 |
| Auditor.ScanWallet | auditor.py:43-53 | both outcomes keep the raw address as the target; the severity is CRITICAL if and only if the chain was unreachable; a balance is present if and only if the chain answered; an answer gives the balance with " ETH", the transaction issue then the entropy issue, LOW, 1 day and 250; a failure gives no balance, only RPC_ERROR, 0 days and 0 |
| Auditor.WalletReportsTransactions | auditor.py:49 | the first issue of an answered wallet scan is the transaction line, and the count can be parsed back out of its text |
| Auditor.IssueLines | auditor.py:78-79 | one line per issue, and line k is "> " followed by issue k |
| Auditor.Body | auditor.py:78-85 | the body has one line per issue, plus two lines when the report is not a remediation |
| Auditor.ReportLines | auditor.py:63-85 | the report has 4 header lines, one line per issue, and 2 quote lines unless it is a remediation |
| Auditor.ReportFilename | auditor.py:87 | the file name starts with "Vanguard_" |
| Auditor.FilenameSameSecond | auditor.py:87 | two reports get the same file name if and only if they are rendered in the same second |
| Auditor.GenerateReport | auditor.py:55-90 | the lines drawn are exactly ReportLines; a file name is returned if and only if the record is renderable (target and issue texts in Latin-1), and it is ReportFilename of the clock second |
| Auditor.DrawLines | auditor.py:61-85 | the cells drawn (header, the issue loop, price and work only when not fixed) are exactly ReportLines |
| Auditor.DrawIssueLines | auditor.py:78-79 | the loop appends exactly one "> " line per issue text, in order, after the lines already drawn |
| Auditor.Output | auditor.py:87-89 | the document is written under ReportFilename of the second if every line is Latin-1, and raises otherwise |
| Auditor.IntToStringLatin1 | auditor.py:84-85 | rendered numbers are Latin-1 |
| Auditor.AllLatin1Concat | auditor.py:64-85 | a sequence of lines encodes if and only if both of its parts do |
| Auditor.StatusWordingLatin1 | auditor.py:63-69 | both status lines are Latin-1 |
| Auditor.HeaderWordingLatin1 | auditor.py:64-75 | the banner, the TARGET prefix and the FINDINGS heading are Latin-1 |
| Auditor.QuoteWordingLatin1 | auditor.py:84-85 | the price and work lines are Latin-1 for any figures |
| Auditor.QuoteLatin1 | auditor.py:82-85 | the quote lines of a report, present or not, are Latin-1 |
| Auditor.HeaderLatin1 | auditor.py:62-75 | the header lines encode if and only if the target is Latin-1 |
| Auditor.IssueLinesLatin1 | auditor.py:78-79 | the issue lines encode if and only if every issue text is Latin-1 |
| Auditor.ReportEncodable | auditor.py:62-89 | every report line encodes if and only if the record is renderable, whether or not it is a remediation |
| Auditor.ForeignTextFails | auditor.py:62-89 | a character outside Latin-1 in the target or in an issue's latency reading or exception message makes the record unrenderable |
| Auditor.RenderableIff | auditor.py:62-89 | a record renders if and only if its target and the latency reading or exception message of every issue are Latin-1 |
| Auditor.SiteTargetLatin1 | auditor.py:13 | the normalised target "https://vulnerable-site.test" is Latin-1 |
| Auditor.SlowUnframedSiteRenders | auditor.py:13-89 | the slow site without X-Frame-Options renders whenever its latency reading is Latin-1 |
| Auditor.WalletRenders | auditor.py:43-89 | a wallet record, answered or not, renders if and only if its address is Latin-1 |
| Auditor.ReadIssueLinesRoundTrip | auditor.py:78-79 | the issue texts can be recovered in order from the "> " lines |
| Auditor.ReadQuoteRoundTrip | auditor.py:84-85 | the price and the work days can be read back from their two lines |
| Auditor.StatusLinesDiffer | auditor.py:63-69 | the remediation status line and the discovery status line are different |
| Auditor.HeaderReadBack | auditor.py:63-75 | the header gives back the fixed flag and the target |
| Auditor.QuotedBodyReadBack | auditor.py:78-85 | any issue lines, with or without price and work lines, read back as those texts and exactly those figures |
| Auditor.BodyReadBack | auditor.py:78-85 | the body gives back the issue texts, plus price and days exactly when the report is not a remediation |
| Auditor.ReportReadBack | auditor.py:63-85 | reading a rendered report gives back the status (REMEDIATION SUCCESSFUL if and only if fixed), the target, every issue in order, and the price and days exactly when not fixed |
| Decimal.DigitValue | auditor.py:84 | a digit character has a value below 10, and that value renders back to the same character |
| Decimal.ParseNat | auditor.py:84 | a string parses as a natural number if and only if it is canonical: nonempty digits with no leading zero except "0" itself |
| Decimal.IntToString | auditor.py:84-87 | the rendering is nonempty and starts with '-' if and only if the number is negative |
| Decimal.NatToStringCanonical | auditor.py:84 | rendering a natural number gives a canonical digit string |
| Decimal.ParseNatOfString | auditor.py:84 | parsing the rendering of n gives back n |
| Decimal.LeadingNonZeroPositive | auditor.py:84 | a canonical digit string other than "0" has a positive value |
| Decimal.StringOfParseNat | auditor.py:84 | rendering a parsed natural number gives back the string |
| Decimal.ParseIntOfString | auditor.py:84-87 | parsing the rendering of i gives back i |
| Decimal.ParseIntIff | auditor.py:84-87 | a string parses to i if and only if it is the rendering of i |
| Decimal.IntToStringDigits | auditor.py:84-87 | a rendering consists of decimal digits, with at most a leading '-' |
| Decimal.IntToStringInjective | auditor.py:87 | different integers get different renderings |
| Text.TrimStart | main.py:27 | the result is a suffix of the input; what was cut is whitespace; the result is empty or starts with a non-space |
| Text.TrimEnd | main.py:27 | the result is a prefix of the input; what was cut is whitespace; the result is empty or ends with a non-space |
| Text.Strip | main.py:27 | the result has no whitespace at either end, is a contiguous slice of the input, and only whitespace was cut off on either side |
| Text.StripFixesStripped | main.py:27 | stripping leaves a string unchanged if and only if it has no whitespace at either end |
| Text.StripIdempotent | main.py:27 | stripping twice is the same as stripping once |
| Text.Latin1Concat | auditor.py:62-89 | a concatenation is Latin-1 if and only if both parts are |
| Text.Latin1Join | auditor.py:62-89 | three Latin-1 pieces join into a Latin-1 string |
| Text.ConcatCancel | auditor.py:87 | strings with the same prefix and suffix are equal if and only if their middles are |
| Main.Classify | main.py:31 | a target is a website if and only if it contains a '.'; every other string is a wallet |
| Main.Scan | main.py:31 | the dispatched record has the classified kind: the website scan of the target for a website, the wallet scan otherwise |
| Main.RunScan | main.py:31 | calling scan_website or scan_wallet by the dot rule gives exactly Scan |
| Main.ForeignTargetNotRendered | main.py:31-32 | a target outside Latin-1 is never rendered, whichever scan it goes to, because the report's TARGET line holds it |
| Main.CyrillicTargetNotRendered | main.py:27-32 | the message "привет" yields a record whose report cannot be rendered |
| Main.FixRows | main.py:82 | the UPDATE keeps the number of rows |
| Main.FixRowsEffect | main.py:82 | after a fix, each row keeps its id, target and cost; a row whose target equals the request's target exactly is FIXED with the new pdf; every other row is unchanged |
| Main.FixRowsNoMatch | main.py:82 | a fix whose target matches no row leaves the table as it was |
| Main.FixRowsIdempotent | main.py:82 | repeating the same fix changes nothing more |
| Main.FixRowsKeepsIds | main.py:82 | a fix keeps the ids ascending in insertion order |
| Main.AllStrippedAppend | main.py:27-38 | appending a row with a stripped target keeps every stored target stripped |
| Main.AllStrippedFix | main.py:82 | a fix keeps every stored target stripped |
| Main.FixUnstrippedTargetIsNoop | main.py:75-82 | when every stored target is stripped, a fix whose target has whitespace at either end leaves the table unchanged |
| Main.NewestFirst | main.py:60 | the listing has as many rows as the table |
| Main.NewestFirstContents | main.py:60 | the listing holds the row at position i from the end at position i, and it holds the same rows as the table |
| Main.NewestFirstDescending | main.py:58-60 | on a table whose ids ascend in insertion order, the listing's ids strictly descend |
| Main.JobTable.constructor | main.py:58 | a new table is empty and its SERIAL sequence starts at 1 |
| Main.JobTable.Insert | main.py:37-38 | INSERT appends exactly one PENDING row with the given target, cost and pdf; its id is greater than every existing id; earlier rows are unchanged; the id counter advances |
| Main.JobTable.MarkFixed | main.py:82 | the row-by-row UPDATE leaves exactly FixRows of the old rows, and keeps the id counter and the ordering invariant |
| Main.JobTable.ListAll | main.py:60 | SELECT ORDER BY id DESC returns the rows newest first, with strictly descending ids |
| Main.Service.constructor | main.py:58 | the service starts with an empty, fresh table |
| Main.Service.HandleBotMsg | main.py:26-43 | the bot acknowledges the stripped target and scans it. If the report (fixed=False) renders, it inserts exactly one row: the next id, the stripped raw target (not the normalised URL), the scan's cost, PENDING and the report file name; earlier rows are unchanged, the id counter advances, and the document goes out with a caption carrying the cost. If rendering raises, the table and counter are unchanged and no document is sent |
| Main.Service.ApiAudit | main.py:66-71 | with a target whose report renders, the answer is FOUND with the scan's cost and the report file name, rendered with fixed=False; without a target, or when rendering raises, the route fails; the method cannot modify the table |
| Main.Service.ApiFix | main.py:73-86 | with a target whose report renders, the report is rendered with fixed=True, the table becomes FixRows of the old rows with the new file name, no row is inserted, and the answer is FIXED even when no row matched; without a target, or when rendering raises, the route fails before the UPDATE and nothing changes |
| Main.Service.Index | main.py:54-64 | the dashboard lists every job newest first, ids strictly descending |
| Main.SubmitThenFix | main.py:26-86 | a bot submission of any message, followed by a fix of its stripped text, leaves exactly one row, FIXED, carrying the remediation report's file name and the scan's cost when the report renders, and no row when it does not |

The following are guaranteed by types rather than by a lemma:

- A row's status is `PENDING` or `FIXED` (main.py:38, 82), because `Status`
  has only those two values.
- `GenerateReport` leaves its input record unchanged, because the `Finding` is
  a value.

## Left out

- Network I/O is not modelled: `requests.get`, the Web3 provider,
  `get_balance` and `get_transaction_count`. A request's outcomes are the
  `SiteProbe` and `ChainProbe` parameters.
- Timing is not modelled: `time.time()`, the float latency and its
  `> 1.5` threshold. "Slow" is a boolean, and the `:.2f` latency text is an
  opaque string.
- Wallet balance formatting is not modelled: `from_wei` and `:.4f`. The
  balance text is opaque, and the model appends " ETH" to it.
- HTML parsing with BeautifulSoup is not modelled. Its result is
  `MetaPresent`, `MetaMissing` or `ParseFailed(error)`. The last stands for an
  exception raised after the header checks, which keeps the issues already
  collected.
- Exception messages are not modelled; `str(e)` is an opaque string.
- FPDF drawing is not modelled: colours, fonts, the background rectangle,
  `pdf.ln` spacing, `multi_cell` wrapping of long issue lines, and the bytes
  written to `static/`. The model keeps the text lines, the file name, and
  the one failure that matters: the core font Arial encodes Latin-1 only,
  so a line holding a character above U+00FF makes the render raise.
- Auditor.GenerateReport: the model follows PyFPDF 1.7.x. There,
  `multi_cell` returns the cursor to the left margin, and the Latin-1 check
  runs in `pdf.output` (auditor.py:89). Under fpdf2, `multi_cell` leaves the
  cursor at the right margin by default, so the second
  `pdf.multi_cell(0, 10, ...)` of the issue loop (auditor.py:78-79) has no
  width left and raises. Under fpdf2, then, every report with two or more
  issues fails in the issue loop. That includes every answered wallet scan and
  the slow site without X-Frame-Options. The model returns a file name for
  these whenever they are Latin-1.
- Auditor.Output: the model checks every line when the document is
  written, as PyFPDF 1.7.x does. fpdf2 raises earlier, at the first cell that
  cannot be encoded. Either way no file name is returned.
- `int(time.time())` is not modelled; the current whole second is the
  `seconds` parameter.
- Telegram plumbing is not modelled: `start_cmd`'s greeting (main.py:23-24),
  the polling loop and sending the document. The bot's reply is the
  acknowledgement text, plus the document name and caption when the report
  renders.
- Flask routing, JSON parsing and template rendering are not modelled. A
  request without a `target` raises in the `"." in target` test. The model
  answers `ServerError`, standing for Flask's error response, and leaves the
  table unchanged.
- `Main.Service.ApiAudit`, `Main.Service.ApiFix`: a JSON `target` that is
  present but not a string is not modelled; the target is an
  `Option<string>`.
- psycopg2, connection failures, transactions and `CREATE TABLE IF NOT
  EXISTS` are not modelled. The table is in memory and always exists.
- Main.JobTable.Insert: a target holding a NUL character is not refused.
  PostgreSQL TEXT cannot store NUL, and psycopg2 raises `ValueError` when it
  adapts such a string, so the INSERT (main.py:37-38) raises. The model's
  Insert always succeeds.
- Main.JobTable.Insert: the SERIAL sequence is not bounded. It is a 32-bit
  sequence, and the INSERT after id 2^31-1 raises. The model's `nextId` is an
  unbounded integer. Gaps that failed inserts leave in the sequence are not
  modelled either; only "fresh and greater than every existing id" is relied on.
- Main.JobTable.MarkFixed: a target holding a NUL character is not refused.
  psycopg2 raises `ValueError` adapting it for the UPDATE (main.py:82). The
  model's MarkFixed always succeeds and marks the rows whose target matches.
- Main.Service.HandleBotMsg: the model does not raise where the INSERT does,
  for a target holding NUL or past the 2^31-1 SERIAL limit. In the source the
  handler raises after the acknowledgement and the report, with no row stored
  and no document sent. The model records the job in those cases too.
- Main.Service.ApiFix: the model does not raise where the UPDATE does, for a
  target holding NUL. In the source the route answers a server error and no
  row changes. The model answers `Fixed` and applies `FixRows`.
- `threading` and `asyncio` are not modelled. The bot and the web server run
  concurrently in the source; the model runs one request at a time.
- Environment configuration and dotenv are not modelled.

The model follows the code on these points:

- A later check overwrites the severity, so a missing X-Frame-Options header
  turns HIGH back into MEDIUM.
- There is no content-security-policy check.
- The wallet scan has no transaction-count threshold. An answered wallet
  scan always quotes 250.
- A failure keeps the issues collected before it.
- `/api/audit` stores nothing.

=== FILE: auditor.dfy ===
/**
 * The audit-and-quote pipeline of `VanguardAuditor`: the website scan, the
 * wallet scan, the remediation quote and the text of the rendered report.
 *
 * Network probes are abstracted into outcome values: what the HTTP request,
 * the header lookup, the HTML parse and the chain-state provider answered.
 * Latency and balance figures are the already formatted text the scanner
 * interpolates.
 */
module Auditor {
  import opened Wrappers
  import opened Decimal
  import opened Text

  datatype Kind = Website | Wallet

  datatype Severity = LOW | MEDIUM | HIGH | CRITICAL

  /** The dictionary a scan returns; `balance` is present only for an answered wallet scan. */
  datatype Finding = Finding(
    kind: Kind,
    target: string,
    balance: Option<string>,
    issues: seq<Issue>,
    severity: Severity,
    days: int,
    cost: int)

  /** What parsing the page body for `<meta name="description">` gave. */
  datatype PageOutcome = MetaPresent | MetaMissing | ParseFailed(error: string)

  /** What the single GET request of a website scan gave. */
  datatype SiteProbe =
    | RequestFailed(error: string)
    | Responded(slow: bool, latencyText: string, hasFrameOptions: bool, page: PageOutcome)

  /** What the chain-state provider answered for a wallet address. */
  datatype ChainProbe = Unreachable | Answered(balanceText: string, txCount: int)

  // ---------------------------------------------------------------- issues

  /** The issue templates the scanners append; `IssueText` gives the exact text of each. */
  datatype Issue =
    | CriticalLatency(latencyText: string)
    | MissingFrameOptions
    | NoMetaDescription
    | ConnectionFailure(error: string)
    | Transactions(txCount: int)
    | EntropyStable
    | RpcError

  /** The free text an issue embeds: the latency reading or the exception message. */
  function Payload(issue: Issue): string {
    match issue
    case CriticalLatency(latencyText) => latencyText
    case ConnectionFailure(error) => error
    case _ => ""
  }

  // The fixed wording of the issue templates, each kept in short pieces.

  function LatencyPrefix(): string {
    "CRITICAL LATENCY: "
  }

  function LatencySuffix(): string {
    "s - High DDoS " + "vulnerability."
  }

  function FrameWording(): string {
    "SECURITY GAP: Missing " + "Clickjacking protection " + "(X-Frame-Options)."
  }

  function MetaWording(): string {
    "SEO EXPOSURE: No Meta " + "Description. Site is " + "invisible to indexing."
  }

  function FailurePrefix(): string {
    "CONNECTION_FAILURE: " + "Architecture shielded. " + "Error: "
  }

  function RpcWording(): string {
    "RPC_ERROR: Chain " + "state unreachable."
  }

  lemma LatencyWordingLatin1()
    ensures Latin1(LatencyPrefix()) && Latin1(LatencySuffix())
  {
    assert Latin1("CRITICAL LATENCY: ");
    assert Latin1("s - High DDoS ") && Latin1("vulnerability.");
    Latin1Concat("s - High DDoS ", "vulnerability.");
  }

  lemma FrameWordingLatin1()
    ensures Latin1(FrameWording())
  {
    assert Latin1("SECURITY GAP: Missing ");
    assert Latin1("Clickjacking protection ");
    assert Latin1("(X-Frame-Options).");
    Latin1Join("SECURITY GAP: Missing ", "Clickjacking protection ", "(X-Frame-Options).");
  }

  lemma MetaWordingLatin1()
    ensures Latin1(MetaWording())
  {
    assert Latin1("SEO EXPOSURE: No Meta ");
    assert Latin1("Description. Site is ");
    assert Latin1("invisible to indexing.");
    Latin1Join("SEO EXPOSURE: No Meta ", "Description. Site is ", "invisible to indexing.");
  }

  lemma FailureWordingLatin1()
    ensures Latin1(FailurePrefix())
  {
    assert Latin1("CONNECTION_FAILURE: ");
    assert Latin1("Architecture shielded. ");
    assert Latin1("Error: ");
    Latin1Join("CONNECTION_FAILURE: ", "Architecture shielded. ", "Error: ");
  }

  lemma WalletWordingLatin1()
    ensures Latin1("Transactions: ") && Latin1(" detected.") && Latin1("Entropy Level: Stable")
    ensures Latin1(RpcWording())
  {
    assert Latin1("RPC_ERROR: Chain ") && Latin1("state unreachable.");
    Latin1Concat("RPC_ERROR: Chain ", "state unreachable.");
  }

  /**
   * The exact text of an issue. Its wording is Latin-1 and the free text it
   * embeds appears in it verbatim, so the text is Latin-1 exactly when that
   * free text is.
   */
  function IssueText(issue: Issue): (text: string)
    ensures Latin1(text) <==> Latin1(Payload(issue))
  {
    match issue
    case CriticalLatency(latencyText) =>
      LatencyWordingLatin1();
      Latin1Concat(LatencyPrefix(), latencyText);
      Latin1Concat(LatencyPrefix() + latencyText, LatencySuffix());
      LatencyPrefix() + latencyText + LatencySuffix()
    case MissingFrameOptions =>
      FrameWordingLatin1();
      FrameWording()
    case NoMetaDescription =>
      MetaWordingLatin1();
      MetaWording()
    case ConnectionFailure(error) =>
      FailureWordingLatin1();
      Latin1Concat(FailurePrefix(), error);
      FailurePrefix() + error
    case Transactions(txCount) =>
      WalletWordingLatin1();
      IntToStringLatin1(txCount);
      Latin1Join("Transactions: ", IntToString(txCount), " detected.");
      "Transactions: " + IntToString(txCount) + " detected."
    case EntropyStable =>
      WalletWordingLatin1();
      "Entropy Level: Stable"
    case RpcError =>
      WalletWordingLatin1();
      RpcWording()
  }

  /** The texts of a list of issues, in order. */
  function Texts(issues: seq<Issue>): (texts: seq<string>)
    ensures |texts| == |issues|
    ensures forall k :: 0 <= k < |issues| ==> texts[k] == IssueText(issues[k])
  {
    seq(|issues|, k requires 0 <= k < |issues| => IssueText(issues[k]))
  }

  // ---------------------------------------------------------------- website scan

  /**
   * Scheme normalisation: the result always starts with "http", keeps the
   * input as its tail, and equals the input exactly when the input already
   * started with "http"; otherwise "https://" is put in front.
   */
  function Normalize(url: string): (r: string)
    ensures "http" <= r
    ensures |url| <= |r| && r[|r| - |url|..] == url
    ensures r == url <==> "http" <= url
    ensures r != url ==> r == "https://" + url
  {
    if "http" <= url then url
    else
      assert ("https://" + url)[..4] == "http";
      "https://" + url
  }

  lemma NormalizeIdempotent(url: string)
    ensures Normalize(Normalize(url)) == Normalize(url)
  {
  }

  /** Remediation days quoted for a number of issues. */
  function QuoteDays(issueCount: nat): (days: int)
    ensures days == 2 || days == 5
  {
    if issueCount < 2 then 2 else 5
  }

  /** Price quoted for a number of issues: the base price plus a fixed amount per issue. */
  function QuoteCost(issueCount: nat): (cost: int)
    ensures cost >= 350
  {
    350 + issueCount * 150
  }

  /** The price determines the issue count it was quoted for. */
  lemma QuoteCostInverse(issueCount: nat)
    ensures (QuoteCost(issueCount) - 350) % 150 == 0
    ensures (QuoteCost(issueCount) - 350) / 150 == issueCount
  {
  }

  /** Both figures of the quote grow with the issue count, and the price tells the count apart. */
  lemma QuoteMonotone(m: nat, n: nat)
    requires m <= n
    ensures QuoteDays(m) <= QuoteDays(n)
    ensures QuoteCost(m) <= QuoteCost(n)
    ensures QuoteCost(m) == QuoteCost(n) <==> m == n
  {
  }

  lemma QuoteThreshold(n: nat)
    ensures QuoteDays(n) == 2 <==> n < 2
  {
  }

  /** What the latency check contributes. */
  function LatencyCheck(slow: bool, latencyText: string): seq<Issue> {
    if slow then [CriticalLatency(latencyText)] else []
  }

  /** What the X-Frame-Options check contributes. */
  function HeaderCheck(hasFrameOptions: bool): seq<Issue> {
    if hasFrameOptions then [] else [MissingFrameOptions]
  }

  /** What the meta-description check contributes, or the failure its parse raised. */
  function PageCheck(page: PageOutcome): seq<Issue> {
    match page
    case MetaPresent => []
    case MetaMissing => [NoMetaDescription]
    case ParseFailed(e) => [ConnectionFailure(e)]
  }

  /** The issues a website scan collects, in check order: latency, clickjacking, meta description. */
  function WebsiteIssues(probe: SiteProbe): (issues: seq<Issue>)
    ensures |issues| <= 3
  {
    match probe
    case RequestFailed(e) => [ConnectionFailure(e)]
    case Responded(slow, latencyText, hasFrameOptions, page) =>
      LatencyCheck(slow, latencyText) + HeaderCheck(hasFrameOptions) + PageCheck(page)
  }

  /**
   * The severity a website scan ends with. The checks assign it in turn
   * and the last assignment wins: a missing X-Frame-Options header leaves
   * MEDIUM even after the latency check set HIGH.
   */
  function WebsiteSeverity(probe: SiteProbe): (s: Severity)
    ensures s != CRITICAL
  {
    match probe
    case RequestFailed(_) => LOW
    case Responded(slow, _, hasFrameOptions, _) =>
      if !hasFrameOptions then MEDIUM else if slow then HIGH else LOW
  }

  /** The record `scan_website` returns. */
  function WebsiteFinding(url: string, probe: SiteProbe): (f: Finding)
    ensures f.kind == Website && f.target == Normalize(url) && f.balance == None
    ensures |f.issues| <= 3
    ensures f.days == QuoteDays(|f.issues|) && f.cost == QuoteCost(|f.issues|)
  {
    var issues := WebsiteIssues(probe);
    Finding(Website, Normalize(url), None, issues, WebsiteSeverity(probe),
            QuoteDays(|issues|), QuoteCost(|issues|))
  }

  /**
   * `scan_website`: normalise the URL, then run the checks one after the
   * other, appending to the issue list and reassigning the severity, and
   * quote from the number of issues collected.
   */
  method ScanWebsite(url: string, probe: SiteProbe) returns (f: Finding)
    ensures f == WebsiteFinding(url, probe)
  {
    var target := Normalize(url);
    var issues: seq<Issue> := [];
    var severity := LOW;
    match probe {
      case RequestFailed(e) =>
        issues := issues + [ConnectionFailure(e)];
      case Responded(slow, latencyText, hasFrameOptions, page) =>
        if slow {
          issues := issues + [CriticalLatency(latencyText)];
          severity := HIGH;
        }
        assert issues == LatencyCheck(slow, latencyText);
        if !hasFrameOptions {
          issues := issues + [MissingFrameOptions];
          severity := MEDIUM;
        }
        assert issues == LatencyCheck(slow, latencyText) + HeaderCheck(hasFrameOptions);
        match page {
          case MetaPresent =>
          case MetaMissing =>
            issues := issues + [NoMetaDescription];
          case ParseFailed(e) =>
            // the exception handler appends to what the header checks collected
            issues := issues + [ConnectionFailure(e)];
        }
        assert issues == WebsiteIssues(probe);
    }
    var issueCount := |issues|;
    var days := if issueCount < 2 then 2 else 5;
    var cost := 350 + issueCount * 150;
    f := Finding(Website, target, None, issues, severity, days, cost);
  }

  /** A response that fails no check yields no issues, severity LOW and the base quote. */
  lemma CleanScan(url: string, latencyText: string)
    ensures var f := WebsiteFinding(url, Responded(false, latencyText, true, MetaPresent));
      f.issues == [] && f.severity == LOW && f.days == 2 && f.cost == 350
  {
  }

  /** A failed request yields exactly the connection-failure issue, severity LOW, 2 days and 500. */
  lemma RequestFailureFinding(url: string, error: string)
    ensures var f := WebsiteFinding(url, RequestFailed(error));
      f.issues == [ConnectionFailure(error)] && f.severity == LOW && f.days == 2 && f.cost == 500
  {
  }

  /** On a response, severity is MEDIUM iff the header is missing, HIGH iff slow with the header, else LOW. */
  lemma SeverityOnResponse(url: string, slow: bool, latencyText: string, hasFrameOptions: bool, page: PageOutcome)
    ensures var s := WebsiteFinding(url, Responded(slow, latencyText, hasFrameOptions, page)).severity;
      (s == MEDIUM <==> !hasFrameOptions)
      && (s == HIGH <==> slow && hasFrameOptions)
      && (s == LOW <==> !slow && hasFrameOptions)
  {
  }

  /** The meta-description check (and a failure while parsing the page) never changes severity. */
  lemma PageNeverChangesSeverity(slow: bool, latencyText: string, hasFrameOptions: bool, p: PageOutcome, q: PageOutcome)
    ensures WebsiteSeverity(Responded(slow, latencyText, hasFrameOptions, p))
         == WebsiteSeverity(Responded(slow, latencyText, hasFrameOptions, q))
  {
  }

  /**
   * One issue per failing check, in check order; a failure while parsing
   * the page is appended after what the header checks collected.
   */
  lemma IssuesInCheckOrder(slow: bool, latencyText: string, hasFrameOptions: bool, error: string)
    ensures WebsiteIssues(Responded(slow, latencyText, hasFrameOptions, MetaMissing))
         == WebsiteIssues(Responded(slow, latencyText, hasFrameOptions, MetaPresent)) + [NoMetaDescription]
    ensures WebsiteIssues(Responded(slow, latencyText, hasFrameOptions, ParseFailed(error)))
         == WebsiteIssues(Responded(slow, latencyText, hasFrameOptions, MetaPresent)) + [ConnectionFailure(error)]
    ensures var issues := WebsiteIssues(Responded(slow, latencyText, hasFrameOptions, MetaPresent));
      |issues| == (if slow then 1 else 0) + (if hasFrameOptions then 0 else 1)
      && (slow ==> issues[0] == CriticalLatency(latencyText))
      && (!hasFrameOptions ==> issues[|issues| - 1] == MissingFrameOptions)
  {
  }

  /** A slow site without X-Frame-Options and with a description: two issues, MEDIUM, 5 days, 650. */
  lemma SlowUnframedSite(latencyText: string)
    ensures var f := WebsiteFinding("vulnerable-site.test", Responded(true, latencyText, false, MetaPresent));
      f.target == "https://vulnerable-site.test"
      && |f.issues| == 2 && f.severity == MEDIUM && f.days == 5 && f.cost == 650
  {
    assert "vulnerable-site.test"[0] != "http"[0];
  }

  // ---------------------------------------------------------------- wallet scan

  /**
   * `scan_wallet`: an answered query gives two issues, LOW, one day and 250;
   * any provider failure gives the single RPC error, CRITICAL, nothing to
   * bill. Either way the target is the address as given.
   */
  function ScanWallet(address: string, probe: ChainProbe): (f: Finding)
    ensures f.kind == Wallet && f.target == address
    ensures f.severity == CRITICAL <==> probe.Unreachable?
    ensures f.balance.Some? <==> probe.Answered?
    ensures probe.Answered? ==>
      f.balance == Some(probe.balanceText + " ETH")
      && f.issues == [Transactions(probe.txCount), EntropyStable]
      && f.severity == LOW && f.days == 1 && f.cost == 250
    ensures probe.Unreachable? ==> f.balance == None && f.issues == [RpcError] && f.days == 0 && f.cost == 0
  {
    match probe
    case Answered(balanceText, txCount) =>
      Finding(Wallet, address, Some(balanceText + " ETH"),
              [Transactions(txCount), EntropyStable], LOW, 1, 250)
    case Unreachable =>
      Finding(Wallet, address, None, [RpcError], CRITICAL, 0, 0)
  }

  /** The first issue of an answered wallet scan reports the transaction count, and it can be read back. */
  lemma WalletReportsTransactions(address: string, balanceText: string, txCount: int)
    ensures ScanWallet(address, Answered(balanceText, txCount)).issues[0] == Transactions(txCount)
    ensures var issue := IssueText(Transactions(txCount));
      |issue| >= 24 && ParseInt(issue[14..|issue| - 10]) == Some(txCount)
  {
    var digits := IntToString(txCount);
    var issue := IssueText(Transactions(txCount));
    assert issue[14..|issue| - 10] == digits;
    ParseIntOfString(txCount);
  }

  // ---------------------------------------------------------------- report

  function Title(): string {
    "VANGUARD SAI-838"
  }

  function StatusText(fixed: bool): string {
    if fixed then "REMEDIATION SUCCESSFUL" else "INTEL DISCOVERY REPORT"
  }

  function StatusLine(fixed: bool): string {
    "STATUS: " + StatusText(fixed)
  }

  function TargetLine(target: string): string {
    "TARGET: " + target
  }

  function FindingsLine(): string {
    "FINDINGS:"
  }

  function PriceLine(cost: int): string {
    "PRICE TO SECURE: $" + IntToString(cost)
  }

  function WorkLine(days: int): string {
    "ESTIMATED WORK: " + IntToString(days) + " Days"
  }

  /** One "> " line per issue, in issue order. */
  function IssueLines(issues: seq<string>): (lines: seq<string>)
    ensures |lines| == |issues|
    ensures forall k :: 0 <= k < |issues| ==> lines[k] == "> " + issues[k]
  {
    if issues == [] then []
    else IssueLines(issues[..|issues| - 1]) + ["> " + issues[|issues| - 1]]
  }

  function Header(target: string, fixed: bool): seq<string> {
    [Title(), StatusLine(fixed), TargetLine(target), FindingsLine()]
  }

  function Quote(data: Finding, fixed: bool): seq<string> {
    if fixed then [] else [PriceLine(data.cost), WorkLine(data.days)]
  }

  /** Everything under the FINDINGS: heading. */
  function Body(data: Finding, fixed: bool): (lines: seq<string>)
    ensures |lines| == |data.issues| + (if fixed then 0 else 2)
  {
    IssueLines(Texts(data.issues)) + Quote(data, fixed)
  }

  /** The text lines of the report `generate_report` renders, top to bottom. */
  function ReportLines(data: Finding, fixed: bool): (lines: seq<string>)
    ensures |lines| == 4 + |data.issues| + (if fixed then 0 else 2)
  {
    Header(data.target, fixed) + Body(data, fixed)
  }

  /** The report file name, from the whole seconds of the clock. */
  function ReportFilename(seconds: int): (name: string)
    ensures "Vanguard_" <= name
  {
    "Vanguard_" + IntToString(seconds) + ".pdf"
  }

  /** Two reports get the same file name exactly when they are rendered in the same second. */
  lemma FilenameSameSecond(a: int, b: int)
    ensures ReportFilename(a) == ReportFilename(b) <==> a == b
  {
    Text.ConcatCancel("Vanguard_", IntToString(a), IntToString(b), ".pdf");
    IntToStringInjective(a, b);
  }

  lemma IssueLinesSnoc(texts: seq<string>, i: nat)
    requires i < |texts|
    ensures IssueLines(texts[..i + 1]) == IssueLines(texts[..i]) + ["> " + texts[i]]
  {
    assert texts[..i + 1][..i] == texts[..i];
  }

  lemma ReportLinesSplit(data: Finding, fixed: bool)
    ensures ReportLines(data, fixed) == Header(data.target, fixed) + IssueLines(Texts(data.issues)) + Quote(data, fixed)
  {
  }

  /** Every line can be drawn in the report's core font (Arial), which encodes Latin-1 only. */
  predicate AllLatin1(lines: seq<string>) {
    forall i :: 0 <= i < |lines| ==> Latin1(lines[i])
  }

  /** A record whose report renders: its target and every issue text are Latin-1. */
  predicate Renderable(data: Finding) {
    Latin1(data.target) && AllLatin1(Texts(data.issues))
  }

  lemma AllLatin1Concat(a: seq<string>, b: seq<string>)
    ensures AllLatin1(a + b) <==> AllLatin1(a) && AllLatin1(b)
  {
    if AllLatin1(a + b) {
      assert forall i :: 0 <= i < |a| ==> a[i] == (a + b)[i];
      assert forall i :: 0 <= i < |b| ==> b[i] == (a + b)[|a| + i];
    }
  }

  lemma StatusWordingLatin1()
    ensures Latin1(StatusLine(true)) && Latin1(StatusLine(false))
  {
  }

  lemma HeaderWordingLatin1()
    ensures Latin1(Title()) && Latin1("TARGET: ") && Latin1(FindingsLine())
  {
  }

  lemma IntToStringLatin1(i: int)
    ensures Latin1(IntToString(i))
  {
    IntToStringDigits(i);
  }

  lemma QuoteWordingLatin1(cost: int, days: int)
    ensures Latin1(PriceLine(cost)) && Latin1(WorkLine(days))
  {
    assert Latin1("PRICE TO SECURE: $") && Latin1("ESTIMATED WORK: ") && Latin1(" Days");
    IntToStringLatin1(cost);
    IntToStringLatin1(days);
    Latin1Concat("PRICE TO SECURE: $", IntToString(cost));
    Latin1Concat("ESTIMATED WORK: ", IntToString(days));
    Latin1Concat("ESTIMATED WORK: " + IntToString(days), " Days");
  }

  lemma QuoteLatin1(data: Finding, fixed: bool)
    ensures AllLatin1(Quote(data, fixed))
  {
    QuoteWordingLatin1(data.cost, data.days);
  }

  lemma HeaderLatin1(target: string, fixed: bool)
    ensures AllLatin1(Header(target, fixed)) <==> Latin1(target)
  {
    var header := Header(target, fixed);
    assert header[0] == Title() && header[1] == StatusLine(fixed);
    assert header[2] == "TARGET: " + target && header[3] == FindingsLine();
    HeaderWordingLatin1();
    StatusWordingLatin1();
    Latin1Concat("TARGET: ", target);
  }

  lemma IssueLinesLatin1(texts: seq<string>)
    ensures AllLatin1(IssueLines(texts)) <==> AllLatin1(texts)
  {
    assert Latin1("> ");
    forall k | 0 <= k < |texts|
      ensures Latin1(IssueLines(texts)[k]) <==> Latin1(texts[k])
    {
      Latin1Concat("> ", texts[k]);
    }
  }

  /**
   * The report renders exactly when the target and every issue text are
   * Latin-1: the rest of its wording is ASCII. Whether it is a remediation
   * makes no difference.
   */
  lemma ReportEncodable(data: Finding, fixed: bool)
    ensures AllLatin1(ReportLines(data, fixed)) <==> Renderable(data)
  {
    var header, issueLines, quote := Header(data.target, fixed), IssueLines(Texts(data.issues)), Quote(data, fixed);
    ReportLinesSplit(data, fixed);
    AllLatin1Concat(header + issueLines, quote);
    AllLatin1Concat(header, issueLines);
    HeaderLatin1(data.target, fixed);
    IssueLinesLatin1(Texts(data.issues));
    QuoteLatin1(data, fixed);
  }

  /**
   * A character outside Latin-1 in the target, or in the free text of an
   * issue (a latency reading, an exception message), makes the render fail.
   */
  lemma ForeignTextFails(data: Finding, k: int)
    requires !Latin1(data.target) || (0 <= k < |data.issues| && !Latin1(Payload(data.issues[k])))
    ensures !Renderable(data)
  {
    if Latin1(data.target) {
      assert Texts(data.issues)[k] == IssueText(data.issues[k]);
    }
  }

  /** Only the target and the free text of the issues decide whether a record renders. */
  lemma RenderableIff(data: Finding)
    ensures Renderable(data)
        <==> Latin1(data.target) && forall k :: 0 <= k < |data.issues| ==> Latin1(Payload(data.issues[k]))
  {
    var texts := Texts(data.issues);
    forall k | 0 <= k < |data.issues|
      ensures Latin1(texts[k]) <==> Latin1(Payload(data.issues[k]))
    {
      assert texts[k] == IssueText(data.issues[k]);
    }
  }

  lemma SiteTargetLatin1()
    ensures Latin1(Normalize("vulnerable-site.test"))
  {
    assert "vulnerable-site.test"[0] != "http"[0];
    assert Latin1("https://") && Latin1("vulnerable-site.test");
    Latin1Concat("https://", "vulnerable-site.test");
  }

  /** The slow site without X-Frame-Options renders whenever its latency reading is Latin-1. */
  lemma SlowUnframedSiteRenders(latencyText: string)
    requires Latin1(latencyText)
    ensures Renderable(WebsiteFinding("vulnerable-site.test", Responded(true, latencyText, false, MetaPresent)))
  {
    var f := WebsiteFinding("vulnerable-site.test", Responded(true, latencyText, false, MetaPresent));
    SiteTargetLatin1();
    assert f.issues == [CriticalLatency(latencyText), MissingFrameOptions];
    RenderableIff(f);
  }

  /** A wallet report embeds no free text beyond the address, so it renders exactly when the address is Latin-1. */
  lemma WalletRenders(address: string, probe: ChainProbe)
    ensures Renderable(ScanWallet(address, probe)) <==> Latin1(address)
  {
    var f := ScanWallet(address, probe);
    assert forall k :: 0 <= k < |f.issues| ==> Payload(f.issues[k]) == "";
    RenderableIff(f);
  }

  /**
   * `generate_report`: draw the report's lines, then write the document
   * under a name taken from the current second. Writing raises, and no
   * name is returned, when a line holds a character the core font cannot
   * encode.
   */
  method GenerateReport(data: Finding, fixed: bool, seconds: int) returns (lines: seq<string>, filename: Option<string>)
    ensures lines == ReportLines(data, fixed)
    ensures filename.Some? <==> Renderable(data)
    ensures filename.Some? ==> filename.value == ReportFilename(seconds)
  {
    lines := DrawLines(data, fixed);
    filename := Output(lines, seconds);
    ReportEncodable(data, fixed);
  }

  /**
   * The cells `generate_report` draws: the banner, status and target lines,
   * one line per issue, and the price and work lines only for a report that
   * is not a remediation.
   */
  method DrawLines(data: Finding, fixed: bool) returns (lines: seq<string>)
    ensures lines == ReportLines(data, fixed)
  {
    var statusText := StatusText(fixed);
    lines := [Title(), "STATUS: " + statusText, TargetLine(data.target), FindingsLine()];
    lines := DrawIssueLines(lines, Texts(data.issues));
    if !fixed {
      lines := lines + [PriceLine(data.cost), WorkLine(data.days)];
    }
    ReportLinesSplit(data, fixed);
  }

  /** `for issue in data['issues']`: one "> " cell per issue text, in order. */
  method DrawIssueLines(drawn: seq<string>, texts: seq<string>) returns (lines: seq<string>)
    ensures lines == drawn + IssueLines(texts)
  {
    lines := drawn;
    assert texts[..0] == [];
    for i := 0 to |texts|
      invariant lines == drawn + IssueLines(texts[..i])
    {
      IssueLinesSnoc(texts, i);
      lines := lines + ["> " + texts[i]];
    }
    assert texts[..|texts|] == texts;
  }

  /**
   * `pdf.output`: the document is written, under the second's file name, only
   * if every line encodes. PyFPDF 1.7 checks the encoding at this point.
   */
  method Output(lines: seq<string>, seconds: int) returns (filename: Option<string>)
    ensures filename == if AllLatin1(lines) then Some(ReportFilename(seconds)) else None
  {
    if AllLatin1(lines) {
      filename := Some(ReportFilename(seconds));
    } else {
      filename := None;
    }
  }

  // ---------------------------------------------------------------- reading a report back

  /** What a reader of the report can recover from its text. */
  datatype ReportView = ReportView(fixed: bool, target: string, issues: seq<string>, quote: Option<(int, int)>)

  /** The remediation flag and the target, from the four header lines. */
  function ReadHeader(header: seq<string>): Option<(bool, string)>
    requires |header| == 4
  {
    if header[0] != Title() || header[3] != FindingsLine() || !("TARGET: " <= header[2]) then None
    else if header[1] == StatusLine(true) then Some((true, header[2][8..]))
    else if header[1] == StatusLine(false) then Some((false, header[2][8..]))
    else None
  }

  function ReadIssueLines(lines: seq<string>): Option<seq<string>> {
    if lines == [] then Some([])
    else
      match ReadIssueLines(lines[..|lines| - 1])
      case None => None
      case Some(prev) =>
        var line := lines[|lines| - 1];
        if "> " <= line then Some(prev + [line[2..]]) else None
  }

  function ReadQuote(price: string, work: string): Option<(int, int)> {
    if "PRICE TO SECURE: $" <= price && |work| >= 21 && work[..16] == "ESTIMATED WORK: "
       && work[|work| - 5..] == " Days"
    then
      match (ParseInt(price[18..]), ParseInt(work[16..|work| - 5]))
      case (Some(cost), Some(days)) => Some((cost, days))
      case _ => None
    else None
  }

  /** The issue texts, and for an audit report the price and the work days, from the body lines. */
  function ReadBody(fixed: bool, body: seq<string>): Option<(seq<string>, Option<(int, int)>)> {
    if fixed then
      match ReadIssueLines(body)
      case Some(issues) => Some((issues, None))
      case None => None
    else if |body| < 2 then None
    else
      match (ReadIssueLines(body[..|body| - 2]), ReadQuote(body[|body| - 2], body[|body| - 1]))
      case (Some(issues), Some(quote)) => Some((issues, Some(quote)))
      case _ => None
  }

  function ReadReport(lines: seq<string>): Option<ReportView> {
    if |lines| < 4 then None
    else
      match ReadHeader(lines[..4])
      case None => None
      case Some((fixed, target)) =>
        match ReadBody(fixed, lines[4..])
        case None => None
        case Some((issues, quote)) => Some(ReportView(fixed, target, issues, quote))
  }

  lemma {:induction false} ReadIssueLinesRoundTrip(issues: seq<string>)
    ensures ReadIssueLines(IssueLines(issues)) == Some(issues)
    decreases |issues|
  {
    if issues != [] {
      var init := issues[..|issues| - 1];
      var lines := IssueLines(issues);
      assert lines[..|lines| - 1] == IssueLines(init);
      ReadIssueLinesRoundTrip(init);
      assert lines[|lines| - 1][2..] == issues[|issues| - 1];
      assert init + [issues[|issues| - 1]] == issues;
    }
  }

  lemma ReadQuoteRoundTrip(cost: int, days: int)
    ensures ReadQuote(PriceLine(cost), WorkLine(days)) == Some((cost, days))
  {
    var c, d := IntToString(cost), IntToString(days);
    var price, work := PriceLine(cost), WorkLine(days);
    assert price[18..] == c;
    assert work[..16] == "ESTIMATED WORK: ";
    assert work[|work| - 5..] == " Days";
    assert work[16..|work| - 5] == d;
    ParseIntOfString(cost);
    ParseIntOfString(days);
  }

  lemma StatusLinesDiffer()
    ensures StatusLine(true) != StatusLine(false)
  {
    assert StatusLine(true)[8] == 'R' && StatusLine(false)[8] == 'I';
  }

  lemma HeaderReadBack(target: string, fixed: bool)
    ensures ReadHeader(Header(target, fixed)) == Some((fixed, target))
  {
    assert "TARGET: " <= TargetLine(target) && TargetLine(target)[8..] == target;
    StatusLinesDiffer();
  }

  lemma QuotedBodyReadBack(texts: seq<string>, fixed: bool, cost: int, days: int)
    ensures ReadBody(fixed, IssueLines(texts) + (if fixed then [] else [PriceLine(cost), WorkLine(days)]))
         == Some((texts, if fixed then None else Some((cost, days))))
  {
    var issueLines := IssueLines(texts);
    var body := issueLines + (if fixed then [] else [PriceLine(cost), WorkLine(days)]);
    ReadIssueLinesRoundTrip(texts);
    if fixed {
      assert body == issueLines;
    } else {
      assert body[..|body| - 2] == issueLines;
      assert body[|body| - 2] == PriceLine(cost) && body[|body| - 1] == WorkLine(days);
      ReadQuoteRoundTrip(cost, days);
    }
  }

  lemma BodyReadBack(data: Finding, fixed: bool)
    ensures ReadBody(fixed, Body(data, fixed))
         == Some((Texts(data.issues), if fixed then None else Some((data.cost, data.days))))
  {
    QuotedBodyReadBack(Texts(data.issues), fixed, data.cost, data.days);
  }

  /**
   * The report text carries the status (REMEDIATION SUCCESSFUL exactly
   * when `fixed`), the target, every issue in order, and the price and work
   * figures exactly when the report is not a remediation.
   */
  lemma ReportReadBack(data: Finding, fixed: bool)
    ensures ReadReport(ReportLines(data, fixed))
         == Some(ReportView(fixed, data.target, Texts(data.issues), if fixed then None else Some((data.cost, data.days))))
  {
    var header, body := Header(data.target, fixed), Body(data, fixed);
    assert (header + body)[..4] == header;
    assert (header + body)[4..] == body;
    HeaderReadBack(data.target, fixed);
    BodyReadBack(data, fixed);
  }
}

=== FILE: decimal.dfy ===
/**
 * Decimal rendering of integers, as Python's `str(int)` and f-string
 * interpolation produce it (an optional '-', then digits without leading
 * zeros), together with the parser that reads such a rendering back.
 * The auditor uses it for transaction counts, prices, work days and the
 * seconds in report file names.
 */
module Decimal {
  import opened Wrappers

  predicate IsDigit(c: char) {
    '0' <= c <= '9'
  }

  function DigitChar(d: nat): (c: char)
    requires d < 10
    ensures IsDigit(c)
  {
    ('0' as int + d) as char
  }

  function DigitValue(c: char): (d: nat)
    requires IsDigit(c)
    ensures d < 10 && DigitChar(d) == c
  {
    c as int - '0' as int
  }

  predicate AllDigits(s: string) {
    forall k :: 0 <= k < |s| ==> IsDigit(s[k])
  }

  /** The shape of Python's `str(n)` for a natural number: digits only, no leading zero except "0". */
  predicate Canonical(s: string) {
    |s| > 0 && AllDigits(s) && (s[0] == '0' ==> |s| == 1)
  }

  /** `str(n)` for n >= 0. */
  function NatToString(n: nat): (s: string)
    decreases n
  {
    if n < 10 then [DigitChar(n)] else NatToString(n / 10) + [DigitChar(n % 10)]
  }

  /** The value of a string of digits, most significant first. */
  function DigitsValue(s: string): (n: nat)
    requires AllDigits(s)
  {
    if s == [] then 0 else DigitsValue(s[..|s| - 1]) * 10 + DigitValue(s[|s| - 1])
  }

  function ParseNat(s: string): (r: Option<nat>)
    ensures r.Some? <==> Canonical(s)
  {
    if Canonical(s) then Some(DigitsValue(s)) else None
  }

  /** `str(i)` for any integer. */
  function IntToString(i: int): (s: string)
    ensures |s| > 0
    ensures i < 0 <==> s[0] == '-'
  {
    NatToStringCanonical(if i < 0 then -i else i);
    if i < 0 then "-" + NatToString(-i) else NatToString(i)
  }

  /** Reads back exactly the strings IntToString produces ("-0" is not one of them). */
  function ParseInt(s: string): (r: Option<int>)
  {
    if |s| > 0 && s[0] == '-' then
      match ParseNat(s[1..])
      case Some(n) => if n == 0 then None else Some(0 - n)
      case None => None
    else
      match ParseNat(s)
      case Some(n) => Some(n)
      case None => None
  }

  lemma {:induction false} NatToStringCanonical(n: nat)
    ensures Canonical(NatToString(n))
    ensures DigitsValue(NatToString(n)) == n
    decreases n
  {
    var s := NatToString(n);
    if n >= 10 {
      NatToStringCanonical(n / 10);
      var p := NatToString(n / 10);
      assert s == p + [DigitChar(n % 10)];
      assert s[..|s| - 1] == p;
    }
  }

  /** Every value is rendered canonically, and parsing the rendering gives the value back. */
  lemma ParseNatOfString(n: nat)
    ensures ParseNat(NatToString(n)) == Some(n)
  {
    NatToStringCanonical(n);
  }

  lemma {:induction false} LeadingNonZeroPositive(s: string)
    requires |s| > 0 && AllDigits(s) && s[0] != '0'
    ensures DigitsValue(s) >= 1
    decreases |s|
  {
    if |s| > 1 {
      LeadingNonZeroPositive(s[..|s| - 1]);
    } else {
      assert s[..0] == [];
    }
  }

  /** The converse round trip: a canonical string is the rendering of its own value. */
  lemma {:induction false} StringOfParseNat(s: string)
    requires Canonical(s)
    ensures NatToString(DigitsValue(s)) == s
    decreases |s|
  {
    var v := DigitsValue(s);
    if |s| == 1 {
      assert s[..|s| - 1] == [];
      assert v == DigitsValue([]) * 10 + DigitValue(s[0]);
    } else {
      var p := s[..|s| - 1];
      assert p[0] == s[0];
      StringOfParseNat(p);
      LeadingNonZeroPositive(p);
      assert v / 10 == DigitsValue(p) && v % 10 == DigitValue(s[|s| - 1]);
      assert s == p + [s[|s| - 1]];
    }
  }

  lemma ParseIntOfString(i: int)
    ensures ParseInt(IntToString(i)) == Some(i)
  {
    if i < 0 {
      var t := NatToString(-i);
      assert ("-" + t)[1..] == t;
      ParseNatOfString(-i);
    } else {
      ParseNatOfString(i);
    }
  }

  /** ParseInt accepts exactly the renderings of integers. */
  lemma ParseIntIff(s: string, i: int)
    ensures ParseInt(s) == Some(i) <==> s == IntToString(i)
  {
    if s == IntToString(i) {
      ParseIntOfString(i);
    }
    if ParseInt(s) == Some(i) {
      if |s| > 0 && s[0] == '-' {
        StringOfParseNat(s[1..]);
        assert s == "-" + s[1..];
      } else {
        StringOfParseNat(s);
      }
    }
  }

  /** A rendering is made of decimal digits and, for a negative number, a leading '-'. */
  lemma IntToStringDigits(i: int)
    ensures var s := IntToString(i);
      forall k :: 0 <= k < |s| ==> IsDigit(s[k]) || (k == 0 && s[k] == '-')
  {
    if i < 0 {
      NatToStringCanonical(-i);
      var t := NatToString(-i);
      assert forall k :: 1 <= k < |"-" + t| ==> ("-" + t)[k] == t[k - 1];
    } else {
      NatToStringCanonical(i);
    }
  }

  /** Distinct integers have distinct renderings. */
  lemma IntToStringInjective(a: int, b: int)
    ensures IntToString(a) == IntToString(b) <==> a == b
  {
    ParseIntOfString(a);
    ParseIntOfString(b);
  }
}

=== FILE: main.dfy ===
/**
 * The service around the auditor: the target classifier, the
 * `vanguard_jobs` table with the meaning its INSERT, UPDATE and SELECT
 * statements give it, and the three front doors that share them (the bot's
 * message handler, `/api/audit` and `/api/fix`) plus the dashboard listing.
 *
 * The table is held in memory. Each request's clock reading and probe
 * outcomes are parameters.
 */
module Main {
  import opened Wrappers
  import opened Decimal
  import opened Text
  import opened Auditor

  // ---------------------------------------------------------------- classification

  /** `"." in target`: any dot makes the target a website, everything else is a wallet. */
  function Classify(target: string): (kind: Kind)
    ensures kind == Website <==> exists k :: 0 <= k < |target| && target[k] == '.'
  {
    if '.' in target then Website else Wallet
  }

  /** What the network answers for one request, whichever scanner asks. */
  datatype Probes = Probes(site: SiteProbe, chain: ChainProbe)

  /** The record the dispatched scan returns. */
  function Scan(target: string, probes: Probes): (f: Finding)
    ensures f.kind == Classify(target)
    ensures f.kind == Website ==> f == WebsiteFinding(target, probes.site)
    ensures f.kind == Wallet ==> f == ScanWallet(target, probes.chain)
  {
    if '.' in target then WebsiteFinding(target, probes.site) else ScanWallet(target, probes.chain)
  }

  /**
   * Whichever scan a target goes to, the report's TARGET line holds it (as
   * given, or behind "https://"), so a target outside Latin-1 is never
   * rendered.
   */
  lemma ForeignTargetNotRendered(target: string, probes: Probes)
    requires !Latin1(target)
    ensures !Renderable(Scan(target, probes))
  {
    var f := Scan(target, probes);
    if f.target != target {
      Latin1Concat("https://", target);
    }
    ForeignTextFails(f, 0);
  }

  /** For instance, a Cyrillic message such as "привет". */
  lemma CyrillicTargetNotRendered(probes: Probes)
    ensures !Renderable(Scan("\U{43f}\U{440}\U{438}\U{432}\U{435}\U{442}", probes))
  {
    var target := "\U{43f}\U{440}\U{438}\U{432}\U{435}\U{442}";
    assert target[0] > '\U{ff}';
    ForeignTargetNotRendered(target, probes);
  }

  /** `scan_website(target) if "." in target else scan_wallet(target)`, shared by every front door. */
  method RunScan(target: string, probes: Probes) returns (f: Finding)
    ensures f == Scan(target, probes)
  {
    if '.' in target {
      f := ScanWebsite(target, probes.site);
    } else {
      f := ScanWallet(target, probes.chain);
    }
  }

  // ---------------------------------------------------------------- the job table

  datatype Status = PENDING | FIXED

  /** One row of `vanguard_jobs (id SERIAL PRIMARY KEY, target TEXT, cost INT, status TEXT, pdf TEXT)`. */
  datatype Job = Job(id: int, target: string, cost: int, status: Status, pdf: string)

  /** Rows in insertion order carry strictly increasing ids. */
  predicate IdsAscending(rows: seq<Job>) {
    forall i, j :: 0 <= i < j < |rows| ==> rows[i].id < rows[j].id
  }

  /** The row after `UPDATE ... SET status='FIXED', pdf=<pdf> WHERE target=<target>`. */
  function FixRow(row: Job, target: string, pdf: string): Job {
    if row.target == target then row.(status := FIXED, pdf := pdf) else row
  }

  /** The table after that UPDATE: every row is passed through FixRow. */
  function FixRows(rows: seq<Job>, target: string, pdf: string): (r: seq<Job>)
    ensures |r| == |rows|
  {
    seq(|rows|, i requires 0 <= i < |rows| => FixRow(rows[i], target, pdf))
  }

  /**
   * The fix touches exactly the rows whose target equals the requested one:
   * those become FIXED with the new pdf, keeping id, target and cost; every
   * other row is left as it was.
   */
  lemma FixRowsEffect(rows: seq<Job>, target: string, pdf: string, i: int)
    requires 0 <= i < |rows|
    ensures var r := FixRows(rows, target, pdf)[i];
      r.id == rows[i].id && r.target == rows[i].target && r.cost == rows[i].cost
      && (rows[i].target == target ==> r.status == FIXED && r.pdf == pdf)
      && (rows[i].target != target ==> r == rows[i])
  {
  }

  /** A fix whose target matches no row leaves the table as it was. */
  lemma FixRowsNoMatch(rows: seq<Job>, target: string, pdf: string)
    requires forall i :: 0 <= i < |rows| ==> rows[i].target != target
    ensures FixRows(rows, target, pdf) == rows
  {
  }

  /** Repeating the same fix changes nothing more. */
  lemma FixRowsIdempotent(rows: seq<Job>, target: string, pdf: string)
    ensures FixRows(FixRows(rows, target, pdf), target, pdf) == FixRows(rows, target, pdf)
  {
  }

  /** A fix keeps the ids, so the id order the table relies on. */
  lemma FixRowsKeepsIds(rows: seq<Job>, target: string, pdf: string)
    requires IdsAscending(rows)
    ensures IdsAscending(FixRows(rows, target, pdf))
  {
  }

  /** No stored target has whitespace at either end. */
  predicate AllStripped(rows: seq<Job>) {
    forall i :: 0 <= i < |rows| ==> IsStripped(rows[i].target)
  }

  lemma AllStrippedAppend(rows: seq<Job>, row: Job)
    requires AllStripped(rows) && IsStripped(row.target)
    ensures AllStripped(rows + [row])
  {
  }

  lemma AllStrippedFix(rows: seq<Job>, target: string, pdf: string)
    requires AllStripped(rows)
    ensures AllStripped(FixRows(rows, target, pdf))
  {
  }

  /**
   * The bot stores targets stripped of surrounding whitespace while
   * `/api/fix` compares the request's target as it arrives: a target with
   * whitespace at either end matches no stored row.
   */
  lemma FixUnstrippedTargetIsNoop(rows: seq<Job>, target: string, pdf: string)
    requires AllStripped(rows)
    requires !IsStripped(target)
    ensures FixRows(rows, target, pdf) == rows
  {
    FixRowsNoMatch(rows, target, pdf);
  }

  /** The rows read back to front: the last inserted first. */
  function NewestFirst(rows: seq<Job>): (listing: seq<Job>)
    ensures |listing| == |rows|
  {
    if rows == [] then [] else [rows[|rows| - 1]] + NewestFirst(rows[..|rows| - 1])
  }

  /** NewestFirst puts the row at position i from the end at position i, and keeps every row. */
  lemma {:induction false} NewestFirstContents(rows: seq<Job>)
    ensures forall i :: 0 <= i < |rows| ==> NewestFirst(rows)[i] == rows[|rows| - 1 - i]
    ensures multiset(NewestFirst(rows)) == multiset(rows)
    decreases |rows|
  {
    if rows != [] {
      var init := rows[..|rows| - 1];
      NewestFirstContents(init);
      assert rows == init + [rows[|rows| - 1]];
    }
  }

  /** On a table whose ids ascend in insertion order, NewestFirst is the ORDER BY id DESC listing. */
  lemma NewestFirstDescending(rows: seq<Job>)
    requires IdsAscending(rows)
    ensures forall i, j :: 0 <= i < j < |rows| ==> NewestFirst(rows)[i].id > NewestFirst(rows)[j].id
  {
    NewestFirstContents(rows);
    var listing := NewestFirst(rows);
    forall i, j | 0 <= i < j < |rows|
      ensures listing[i].id > listing[j].id
    {
      assert listing[i] == rows[|rows| - 1 - i] && listing[j] == rows[|rows| - 1 - j];
    }
  }

  /**
   * The `vanguard_jobs` table: its rows in insertion order and the next
   * value of the SERIAL id sequence.
   */
  class JobTable {
    var rows: seq<Job>
    var nextId: int

    ghost predicate Valid()
      reads this
    {
      nextId >= 1
      && IdsAscending(rows)
      && forall i :: 0 <= i < |rows| ==> 1 <= rows[i].id < nextId
    }

    constructor ()
      ensures Valid() && rows == [] && nextId == 1
    {
      rows := [];
      nextId := 1;
    }

    /**
     * `INSERT INTO vanguard_jobs (target, cost, status, pdf)`: one new row
     * at the end, status PENDING, with a SERIAL id above every id already
     * in the table; the earlier rows are unchanged.
     */
    method Insert(target: string, cost: int, pdf: string)
      requires Valid()
      modifies this
      ensures Valid()
      ensures rows == old(rows) + [Job(old(nextId), target, cost, PENDING, pdf)]
      ensures forall i :: 0 <= i < |old(rows)| ==> old(rows)[i].id < old(nextId)
      ensures nextId == old(nextId) + 1
    {
      rows := rows + [Job(nextId, target, cost, PENDING, pdf)];
      nextId := nextId + 1;
    }

    /** `UPDATE vanguard_jobs SET status='FIXED', pdf=<pdf> WHERE target=<target>`, row by row. */
    method MarkFixed(target: string, pdf: string)
      requires Valid()
      modifies this
      ensures Valid()
      ensures rows == FixRows(old(rows), target, pdf)
      ensures nextId == old(nextId)
    {
      ghost var before := rows;
      var i := 0;
      while i < |rows|
        invariant 0 <= i <= |rows| == |before|
        invariant forall k :: 0 <= k < i ==> rows[k] == FixRow(before[k], target, pdf)
        invariant forall k :: i <= k < |rows| ==> rows[k] == before[k]
        invariant nextId == old(nextId)
      {
        if rows[i].target == target {
          rows := rows[i := rows[i].(status := FIXED, pdf := pdf)];
        }
        i := i + 1;
      }
      FixRowsKeepsIds(before, target, pdf);
    }

    /**
     * `SELECT * FROM vanguard_jobs ORDER BY id DESC`: every row exactly
     * once, most recently inserted first, ids strictly descending.
     */
    method ListAll() returns (listing: seq<Job>)
      requires Valid()
      ensures listing == NewestFirst(rows)
      ensures forall i, j :: 0 <= i < j < |listing| ==> listing[i].id > listing[j].id
    {
      listing := [];
      var n := 0;
      while n < |rows|
        invariant 0 <= n <= |rows|
        invariant listing == NewestFirst(rows[..n])
      {
        assert rows[..n + 1][..n] == rows[..n];
        listing := [rows[n]] + listing;
        n := n + 1;
      }
      assert rows[..n] == rows;
      NewestFirstDescending(rows);
    }
  }

  // ---------------------------------------------------------------- front doors

  /** The report document the bot uploads, with its caption. */
  datatype Delivery = Delivery(document: string, caption: string)

  /** What the bot sends back: the acknowledgement, then the document unless rendering it raised. */
  datatype BotReply = BotReply(ack: string, delivery: Option<Delivery>)

  /**
   * The JSON the HTTP API answers with, or the server error of a route that
   * raised (a request without a target, or a report the font cannot encode).
   */
  datatype ApiResponse = Found(cost: int, pdf: string) | Fixed(pdf: string) | ServerError

  function AckText(target: string): string {
    "\U{1f6f0} **ANALYZING: " + target + "**"
  }

  function CaptionText(cost: int): string {
    "\U{2705} **INTEL CAPTURED**\nCost to fix: $" + IntToString(cost)
  }

  /**
   * The service state both front doors share. Only the bot handler
   * inserts, and it inserts stripped targets, so every stored target is
   * stripped.
   */
  class Service {
    const jobs: JobTable

    ghost predicate Valid()
      reads this, jobs
    {
      jobs.Valid() && AllStripped(jobs.rows)
    }

    constructor ()
      ensures Valid() && fresh(jobs) && jobs.rows == [] && jobs.nextId == 1
    {
      jobs := new JobTable();
    }

    /**
     * `handle_bot_msg`: strip the message, acknowledge it, scan, render an
     * audit report and insert one PENDING row holding the stripped target
     * (not the normalised URL), the scan's cost and the report's file name.
     * If rendering raises, the handler stops after the acknowledgement:
     * nothing is inserted and no document is sent.
     */
    method HandleBotMsg(text: string, probes: Probes, seconds: int) returns (reply: BotReply, report: seq<string>)
      requires Valid()
      modifies jobs
      ensures Valid()
      ensures var target := Strip(text);
        var f := Scan(target, probes);
        reply.ack == AckText(target)
        && (Renderable(f) ==>
              reply.delivery == Some(Delivery(ReportFilename(seconds), CaptionText(f.cost)))
              && report == ReportLines(f, false)
              && jobs.rows == old(jobs.rows) + [Job(old(jobs.nextId), target, f.cost, PENDING, ReportFilename(seconds))]
              && jobs.nextId == old(jobs.nextId) + 1)
        && (!Renderable(f) ==>
              reply.delivery == None && report == []
              && jobs.rows == old(jobs.rows) && jobs.nextId == old(jobs.nextId))
    {
      var target := Strip(text);
      assert IsStripped(target);
      var ack := AckText(target);
      var res := RunScan(target, probes);
      var lines, pdf := GenerateReport(res, false, seconds);
      if pdf.None? {
        reply, report := BotReply(ack, None), [];
        return;
      }
      ghost var before := jobs.rows;
      jobs.Insert(target, res.cost, pdf.value);
      AllStrippedAppend(before, Job(old(jobs.nextId), target, res.cost, PENDING, pdf.value));
      reply, report := BotReply(ack, Some(Delivery(pdf.value, CaptionText(res.cost)))), lines;
    }

    /**
     * `/api/audit`: scan and render an audit report; the table is not
     * touched. A missing target, or a report that cannot be rendered, makes
     * the route raise.
     */
    method ApiAudit(target: Option<string>, probes: Probes, seconds: int) returns (response: ApiResponse, report: seq<string>)
      ensures target.None? ==> response == ServerError && report == []
      ensures target.Some? ==>
        var f := Scan(target.value, probes);
        (Renderable(f) ==> response == Found(f.cost, ReportFilename(seconds)) && report == ReportLines(f, false))
        && (!Renderable(f) ==> response == ServerError && report == [])
    {
      if target.None? {
        response, report := ServerError, [];
        return;
      }
      var res := RunScan(target.value, probes);
      var lines, pdf := GenerateReport(res, false, seconds);
      if pdf.None? {
        response, report := ServerError, [];
      } else {
        response, report := Found(res.cost, pdf.value), lines;
      }
    }

    /**
     * `/api/fix`: scan again, render a remediation report and mark FIXED,
     * with the new file name, every row whose target equals the request's
     * target exactly. The answer says FIXED whether or not a row matched.
     * A missing target, or a report that cannot be rendered, makes the
     * route raise before the UPDATE.
     */
    method ApiFix(target: Option<string>, probes: Probes, seconds: int) returns (response: ApiResponse, report: seq<string>)
      requires Valid()
      modifies jobs
      ensures Valid()
      ensures jobs.nextId == old(jobs.nextId)
      ensures target.None? ==> response == ServerError && report == [] && jobs.rows == old(jobs.rows)
      ensures target.Some? ==>
        var f := Scan(target.value, probes);
        (Renderable(f) ==>
           response == Fixed(ReportFilename(seconds))
           && report == ReportLines(f, true)
           && jobs.rows == FixRows(old(jobs.rows), target.value, ReportFilename(seconds)))
        && (!Renderable(f) ==> response == ServerError && report == [] && jobs.rows == old(jobs.rows))
    {
      if target.None? {
        response, report := ServerError, [];
        return;
      }
      var res := RunScan(target.value, probes);
      var lines, newPdf := GenerateReport(res, true, seconds);
      if newPdf.None? {
        response, report := ServerError, [];
        return;
      }
      ghost var before := jobs.rows;
      jobs.MarkFixed(target.value, newPdf.value);
      AllStrippedFix(before, target.value, newPdf.value);
      response, report := Fixed(newPdf.value), lines;
    }

    /** The dashboard: every job, newest first. */
    method Index() returns (listing: seq<Job>)
      requires Valid()
      ensures listing == NewestFirst(jobs.rows)
      ensures forall i, j :: 0 <= i < j < |listing| ==> listing[i].id > listing[j].id
    {
      listing := jobs.ListAll();
    }
  }

  /**
   * A submission through the bot followed by a fix of the stripped target:
   * the one row the bot created ends FIXED, carrying the remediation
   * report. When the report cannot be rendered, neither request writes.
   */
  method SubmitThenFix(text: string, probes: Probes, submitted: int, fixedAt: int)
    returns (service: Service, rows: seq<Job>)
    ensures var f := Scan(Strip(text), probes);
      (Renderable(f) ==>
         |rows| == 1 && rows[0].target == Strip(text) && rows[0].status == FIXED
         && rows[0].pdf == ReportFilename(fixedAt) && rows[0].cost == f.cost)
      && (!Renderable(f) ==> rows == [])
  {
    var target := Strip(text);
    service := new Service();
    var reply, report := service.HandleBotMsg(text, probes, submitted);
    ghost var f := Scan(target, probes);
    ghost var row := Job(1, target, f.cost, PENDING, ReportFilename(submitted));
    assert Renderable(f) ==> service.jobs.rows == [row];
    assert !Renderable(f) ==> service.jobs.rows == [];
    var response, fixedReport := service.ApiFix(Some(target), probes, fixedAt);
    if Renderable(f) {
      FixRowsEffect([row], target, ReportFilename(fixedAt), 0);
    }
    rows := service.jobs.rows;
  }
}

=== FILE: text.dfy ===
/**
 * Python's `str.strip()` with no arguments: it removes, from both ends,
 * every character that `str.isspace()` accepts. Also the Latin-1 character
 * class (`Latin1`, with `Latin1Concat` and `Latin1Join` for concatenations),
 * which decides whether a report line can be drawn, and `ConcatCancel`, the
 * cancellation of equal text around a middle part.
 */
module Text {
  /** The characters Python's `str.isspace()` accepts. */
  const Whitespace: set<char> := {
    ' ', '\t', '\n', '\U{0b}', '\U{0c}', '\r', '\U{1c}', '\U{1d}', '\U{1e}', '\U{1f}',
    '\U{85}', '\U{a0}', '\U{1680}', '\U{2000}', '\U{2001}', '\U{2002}', '\U{2003}', '\U{2004}',
    '\U{2005}', '\U{2006}', '\U{2007}', '\U{2008}', '\U{2009}', '\U{200a}', '\U{2028}', '\U{2029}',
    '\U{202f}', '\U{205f}', '\U{3000}'
  }

  predicate IsSpace(c: char) {
    c in Whitespace
  }

  /** Neither end of `s` is whitespace. */
  predicate IsStripped(s: string) {
    s == [] || (!IsSpace(s[0]) && !IsSpace(s[|s| - 1]))
  }

  /** `s.lstrip()`: the suffix of `s` left after its leading whitespace. */
  function TrimStart(s: string): (r: string)
    ensures |r| <= |s| && r == s[|s| - |r|..]
    ensures forall k :: 0 <= k < |s| - |r| ==> IsSpace(s[k])
    ensures r != [] ==> !IsSpace(r[0])
  {
    if s != [] && IsSpace(s[0]) then
      var r := TrimStart(s[1..]);
      assert s[1..][|s[1..]| - |r|..] == s[|s| - |r|..];
      assert forall k :: 1 <= k < |s| - |r| ==> s[k] == s[1..][k - 1];
      r
    else s
  }

  /** `s.rstrip()`: the prefix of `s` left before its trailing whitespace. */
  function TrimEnd(s: string): (r: string)
    ensures |r| <= |s| && r == s[..|r|]
    ensures forall k :: |r| <= k < |s| ==> IsSpace(s[k])
    ensures r != [] ==> !IsSpace(r[|r| - 1])
  {
    if s != [] && IsSpace(s[|s| - 1]) then TrimEnd(s[..|s| - 1]) else s
  }

  /** How many whitespace characters `strip` removes from the front. */
  function Lead(s: string): (n: nat)
    ensures n <= |s|
  {
    |s| - |TrimStart(s)|
  }

  /**
   * `s.strip()`: a contiguous piece of `s` starting at `Lead(s)`, with
   * nothing but whitespace cut off on either side and no whitespace at
   * either of its own ends.
   */
  function Strip(s: string): (r: string)
    ensures IsStripped(r)
    ensures Lead(s) + |r| <= |s| && r == s[Lead(s)..Lead(s) + |r|]
    ensures forall k :: 0 <= k < Lead(s) ==> IsSpace(s[k])
    ensures forall k :: Lead(s) + |r| <= k < |s| ==> IsSpace(s[k])
  {
    var t := TrimStart(s);
    TrimBothEnds(t);
    TrimEndTail(s, Lead(s));
    TrimEnd(t)
  }

  lemma TrimBothEnds(t: string)
    requires t != [] ==> !IsSpace(t[0])
    ensures IsStripped(TrimEnd(t))
  {
    var r := TrimEnd(t);
    assert r != [] ==> r[0] == t[0];
  }

  lemma TrimEndTail(s: string, n: nat)
    requires n <= |s|
    ensures var r := TrimEnd(s[n..]);
      n + |r| <= |s| && r == s[n..n + |r|] && forall k :: n + |r| <= k < |s| ==> IsSpace(s[k])
  {
    var t := s[n..];
    var r := TrimEnd(t);
    assert r == t[..|r|];
    forall k | n + |r| <= k < |s|
      ensures IsSpace(s[k])
    {
      assert s[k] == t[k - n];
    }
  }

  /** Stripping a string whose ends are not whitespace changes nothing, so `strip` is idempotent. */
  lemma StripFixesStripped(s: string)
    ensures IsStripped(s) <==> Strip(s) == s
  {
    if IsStripped(s) && s != [] {
      assert TrimStart(s) == s;
      assert TrimEnd(s) == s;
    }
  }

  lemma StripIdempotent(s: string)
    ensures Strip(Strip(s)) == Strip(s)
  {
    StripFixesStripped(Strip(s));
  }

  /**
   * Every character lies in ISO 8859-1 (Latin-1), the one-byte encoding
   * PDF core fonts such as Arial are limited to.
   */
  predicate Latin1(s: string) {
    forall k :: 0 <= k < |s| ==> s[k] <= '\U{ff}'
  }

  lemma Latin1Concat(a: string, b: string)
    ensures Latin1(a + b) <==> Latin1(a) && Latin1(b)
  {
    if Latin1(a) && Latin1(b) {
      forall k | 0 <= k < |a + b|
        ensures (a + b)[k] <= '\U{ff}'
      {
        if k >= |a| {
          assert (a + b)[k] == b[k - |a|];
        }
      }
    }
    if Latin1(a + b) {
      forall k | 0 <= k < |a|
        ensures a[k] <= '\U{ff}'
      {
        assert a[k] == (a + b)[k];
      }
      forall k | 0 <= k < |b|
        ensures b[k] <= '\U{ff}'
      {
        assert b[k] == (a + b)[|a| + k];
      }
    }
  }

  /** Three Latin-1 pieces join into a Latin-1 string. */
  lemma Latin1Join(a: string, b: string, c: string)
    requires Latin1(a) && Latin1(b) && Latin1(c)
    ensures Latin1(a + b + c)
  {
    Latin1Concat(a, b);
    Latin1Concat(a + b, c);
  }

  /** Equal text between equal prefixes and suffixes: `p + x + q == p + y + q` only when `x == y`. */
  lemma ConcatCancel(p: string, x: string, y: string, q: string)
    ensures p + x + q == p + y + q <==> x == y
  {
    if p + x + q == p + y + q {
      assert |x| == |y|;
      assert x == (p + x + q)[|p|..|p| + |x|];
      assert y == (p + y + q)[|p|..|p| + |y|];
    }
  }
}

=== FILE: wrappers.dfy ===
/** Optional values, used for absent request fields and for parsers that may reject their input. */
module Wrappers {
  datatype Option<+T> = None | Some(value: T)
}
